=== FILE: README.md ===
# FocusGuard session core in Dafny

FocusGuard is a desktop focus timer. The user picks the applications they
want to keep. For a fixed number of minutes, every other application the
program knows about is terminated whenever it shows up. This project
models the sequential logic of that controller and proves properties of it.

- **Derived lists** (`SessionLists`). Starting a session derives two lists
  from the user's selection and the display-name → process-name mapping:
  the allowed process names and the block list.
- **Session state machine** (`FocusGuard`). A two-state machine: start,
  plus an idempotent stop. A worker thread whose start failed stays in its
  attribute, and the next stop then raises at its join before emitting
  anything.
- **Timer** (`FocusGuard.Countdown` / `RunTimer`). A countdown that emits
  one `timer_updated(minutes, seconds)` per second. When the timer of the
  latest start runs out, it marks the session inactive and sets the stop
  event. Its own call to `stop_session` then fails at the join of its own
  thread, so no `session_stopped` is emitted (see "Findings").
- **Monitor pass** (`FocusGuard.MonitorPass`, `ProcessTable`). One pass
  lists the running processes once. Then, for each block-list entry seen
  in that listing, it terminates the first running process with that name,
  ignoring case.
- **Mapping maintenance** (`AppMappings`, `FocusGuard.AddCustomApp`). The
  mapping behaves like a Python dict. Overwriting a key keeps its position
  and a new key is appended. The in-memory update happens before the write
  to disk is attempted. A mapping that cannot be loaded becomes empty.
- **Process survey of `main.py`** (`BackgroundFilter`):
  - the `is_background_process` classification;
  - the loop that keeps the user-facing processes.

The state is an immutable record (`FocusGuard.Guard`). Every Qt signal
becomes an entry appended to its `events` log. The two worker threads
become sequential steps:
- `RunTimer` is the whole life of the timer thread.
- `MonitorPass` is one iteration of the monitor loop.

Whatever the outside world decides is a parameter:
- the process table, as a sequence of names;
- whether a termination attempt raises (`raises`);
- whether listing the processes raised (`listingError`);
- whether starting a thread raised (`spawnError`);
- whether the mapping could be loaded (`Option<AppMap>`);
- whether saving it succeeded (`saveOk`);
- when the user presses Stop while the timer runs (`interruptAfter`).

Some behaviours of the code, which the model keeps:
- The backend has no break phase. The window offers a break duration
  (ui/main_window.py:96-103), but `start_session` takes only
  `(allowed_apps, duration)` (backend/app_logic.py:46).
- Starting while a session is active is not refused. It recomputes the
  lists and reports success again (`FocusGuard.RestartWhileActive`).
- The in-memory mapping keeps a new entry even when saving fails
  (backend/app_logic.py:176-183).
- The monitor loop checks only the stop event, never `is_active`
  (backend/app_logic.py:131).

The window (ui/main_window.py:270) calls
`start_session(selected_apps, duration, break_duration)`. That is one
argument more than backend/app_logic.py:46 accepts, so the call would fail
before entering the method. The model describes the method itself.

## Model

| member | source | states |
|---|---|---|
| AsciiText.LowerStrIdempotent | backend/app_logic.py:134-138 | lower-casing produces a string with no capitals, and lower-casing twice equals lower-casing once |
| AsciiText.ContainsIffOccurs | main.py:23-27 | the recursive `needle in haystack` test holds exactly when the needle occurs at some position, in both directions |
| AppMappings.Lookup | backend/app_logic.py:56-57 | a lookup fails exactly for names that are not keys; a successful lookup returns the process name stored with that key |
| AppMappings.Keys | backend/app_logic.py:169-171 | `get_app_list` has one display name per mapping entry, at the entry's position, so it follows insertion order |
| AppMappings.Put | backend/app_logic.py:176 | after `app_mappings[k] = v`, `k` maps to `v` and every other key keeps its value; an existing key keeps its position, a new key is appended |
| AppMappings.Load | backend/app_logic.py:36-44 | a mapping that cannot be loaded becomes the empty mapping; a loaded one keeps the document's keys in the document's order, and every lookup agrees with the document |
| SessionLists.AllowedProcesses | backend/app_logic.py:55-58 | no longer than the selection, and every allowed name is the mapped process of some selected display name |
| SessionLists.AllowedProcessesAppend | backend/app_logic.py:55-58 | the allowed list of `a + b` is that of `a` followed by that of `b`, so it follows the caller's order |
| SessionLists.AllowedProcessesSingle | backend/app_logic.py:55-58 | a known display name contributes its process name, and an unknown one contributes nothing |
| SessionLists.AllowedProcessesAllKnown | backend/app_logic.py:55-58 | when every selected name is a key, position `i` of the allowed list is the process of the `i`-th selected name |
| SessionLists.BlockList | backend/app_logic.py:61-64 | a process name is blocked exactly when some mapping entry with that process has an unselected display name |
| SessionLists.BlockListAppend | backend/app_logic.py:61-64 | the block list follows mapping insertion order entry by entry, and duplicates are kept |
| SessionLists.BlockListLength | backend/app_logic.py:61-64 | the block list has exactly as many entries as there are unselected keys |
| SessionLists.EveryEntryAllowedOrBlocked | backend/app_logic.py:55-64 | the process of a selected entry is allowed, and the process of an unselected entry is blocked |
| SessionLists.TwoAppExample | backend/app_logic.py:55-64 | with `{"A": "a.exe", "B": "b.exe"}` and `["A"]` selected, the allowed list is `["a.exe"]` and the block list is `["b.exe"]` |
| SessionLists.SharedProcessNameIsBlocked | backend/app_logic.py:55-64 | when two display names share one process name and only one of them is selected, that process name is both allowed and blocked |
| ProcessTable.LowerAll | backend/app_logic.py:134 | the listing has one entry per process, in iteration order, each the lower-cased process name |
| ProcessTable.InSnapshotIffRunning | backend/app_logic.py:134-138 | membership in the lower-cased listing is case-insensitive membership in the process table |
| ProcessTable.FindFirst | backend/app_logic.py:156-157 | returns the first process whose name matches case-insensitively, or none exactly when no process matches |
| ProcessTable.TerminateProcess | backend/app_logic.py:153-167 | reports true exactly when a matching process runs and nothing raises; then only the first match is removed; on false the table is unchanged, including when the attempt raises |
| ProcessTable.RemoveOtherKeepsRunning | backend/app_logic.py:156-160 | terminating a process with a different name does not change whether a name is running |
| ProcessTable.RemoveThenRemoves | backend/app_logic.py:137-142 | removing a process that matches `p`, then one process per name of `blocked`, removes one process per name of `[p] + blocked` and nothing else |
| ProcessTable.SweepFrom | backend/app_logic.py:137-142 | the blocked names are an in-order subsequence of the rest of the block list, and each was seen in the listing; the table afterwards is the table before less exactly one process per blocked name, matching that name ignoring case |
| ProcessTable.SweepAll | backend/app_logic.py:134-142 | a pass blocks at most one name per block-list entry, in block-list order, each seen in the listing; exactly one process matching each blocked name is removed and every other process stays |
| ProcessTable.SweepBlocksEveryRunningEntry | backend/app_logic.py:134-167 | with distinct block-list names, a pass blocks exactly the block-listed names that were running and whose termination did not raise, in order; a raising termination is skipped and the entries after it are still tried |
| ProcessTable.SweepFromCovers | backend/app_logic.py:134-167 | for any block list, repeated names included, every entry that was seen in the listing, is still running and whose termination does not raise is matched by some blocked name |
| ProcessTable.TwoInstancesTwoEntries | backend/app_logic.py:134-160 | two block-list entries for a name terminate two running instances of it, whatever their letter case |
| ProcessTable.OneInstanceTwoEntries | backend/app_logic.py:134-160 | with a single running instance, the second entry for the same name finds nothing and is not counted, given that a terminated process leaves the table at once |
| FocusGuard.GetAppList | backend/app_logic.py:169-171 | the app list has one display name per mapping entry, in insertion order, without repeats, and lists exactly the names the mapping can look up |
| FocusGuard.Init | backend/app_logic.py:25-44 | a new controller is inactive with a clear stop event, no worker threads, empty lists and no events; it holds the mapping as loaded, so its app list is empty when loading failed and otherwise the document's keys |
| FocusGuard.StartSession | backend/app_logic.py:46-92 | an empty selection changes nothing except emitting the selection warning; otherwise the session is active, the stop event is clear, the lists are derived from the mapping, an unstarted worker is recorded exactly when a thread start raised, and one `session_started` is emitted with the returned message |
| FocusGuard.RestartWhileActive | backend/app_logic.py:46-86 | starting while a session is active is accepted, and the block list is recomputed from the new selection |
| FocusGuard.StopSession | backend/app_logic.py:107-124 | stopping an active session makes it inactive and sets the stop event; it then emits one `session_stopped` and returns "Session stopped" when both workers started, and raises with no emission when one never started; stopping an inactive one changes nothing and returns "No active session" |
| FocusGuard.StopAfterSpawnError | backend/app_logic.py:73-122 | after a start whose thread start raised, the next stop ends the session but raises, emitting nothing; a later successful start makes stop report "Session stopped" again |
| FocusGuard.StopIdempotent | backend/app_logic.py:107-124 | a second stop changes nothing, emits nothing and answers "No active session" |
| FocusGuard.TickEventsCountDown | backend/app_logic.py:96-101 | tick `i` of a countdown from `t` seconds shows `t - i` as minutes and seconds, with seconds in 0..59 and never 00:00 |
| FocusGuard.Countdown | backend/app_logic.py:94-117 | the timer always leaves the session inactive, leaves the stop event set when the session was active, does not touch the mapping or the lists, and does nothing to an inactive session |
| FocusGuard.CountdownEvents | backend/app_logic.py:94-122 | from any point of the countdown, the timer emits the remaining ticks up to the user's stop or the end and leaves the stop event set; one `session_stopped` follows a user's stop when both workers started, and none follows a timer that runs out |
| FocusGuard.RunTimer | backend/app_logic.py:94-122 | an uninterrupted `run_timer(d)` on an active session emits the `d * 60` ticks counting down to one second and nothing else, leaving the session inactive with the stop event set; an interrupted one emits the ticks before the user's stop, then that stop's `session_stopped` if it completes; on an inactive session it does nothing |
| FocusGuard.SessionRunsToCompletion | backend/app_logic.py:46-124 | a started session left alone emits `session_started` and every tick but no `session_stopped`, and a later Stop finds no active session and emits nothing |
| FocusGuard.TimerExpiryIsSilent | backend/app_logic.py:103-120 | when the timer runs out, the session ends inactive with the stop event set, and every event the timer added is a tick |
| FocusGuard.RunTimerIntendedEvents | backend/app_logic.py:94-122 | with a timer-side stop that does not join its own thread, the timer emits its ticks up to the stop and then exactly one `session_stopped`, whether it ran out or the user stopped first, when both workers started |
| FocusGuard.MonitorPass | backend/app_logic.py:126-149 | a pass changes only the event log, by emitting `app_blocked` once per blocked block-list entry seen running, in block-list order, and counting it, so the count grows by at most the length of the block list; one process matching each blocked name is removed and no other; a listing error only emits a status message; nothing happens once the stop event is set |
| FocusGuard.MonitorPassBlocksRunning | backend/app_logic.py:131-167 | with distinct block-list names and a listing that succeeds, the pass reports and counts exactly the running block-listed programs whose termination does not raise, in block-list order; a raising termination is neither reported nor counted |
| FocusGuard.MonitorPassReportsEveryRunningEntry | backend/app_logic.py:131-167 | for any block list, repeated names included, when the listing succeeds every running block-list entry whose termination does not raise is matched by some `app_blocked` emission of the pass |
| FocusGuard.NoBlockingAfterStop | backend/app_logic.py:107-131 | after a stop, a monitor pass blocks nothing and emits nothing |
| FocusGuard.BlocksRunningExample | backend/app_logic.py:131-142 | with block list `["b.exe"]` and "b.exe" running, a pass terminates it, emits `app_blocked("b.exe")` and counts one |
| FocusGuard.AddCustomApp | backend/app_logic.py:173-183 | the display name is listed afterwards and maps to the new process; an existing name keeps its position and a new one is appended; the result is the save outcome, and the in-memory update stays when saving fails |
| FocusGuard.AddThenReload | backend/app_logic.py:173-183 | reloading the document `add_custom_app` wrote gives back the new entry and the same app list |
| BackgroundFilter.IsBackgroundProcess | main.py:21-29 | true exactly when a keyword occurs in the lower-cased name, or "windowsapps" or "common files" occurs in the lower-cased path; false otherwise |
| BackgroundFilter.BackgroundIgnoresCase | main.py:22-27 | names and paths that agree up to letter case are classified alike |
| BackgroundFilter.BackgroundOfLowered | main.py:22-27 | classifying the lower-cased name and path gives the same answer as classifying the originals |
| BackgroundFilter.Survey | main.py:34-48 | a process is kept exactly when its info was read, its name and path are non-empty, its account is not a service account, and it is not background; the kept pair is its name and path |
| BackgroundFilter.ListApps | main.py:31-52 | every kept pair has a non-empty name and path, is not background, and comes from a process that passes the rules |
| BackgroundFilter.ListAppsAppend | main.py:31-52 | the survey of `a + b` is the survey of `a` followed by that of `b` |
| BackgroundFilter.RaisedIsSkipped | main.py:51-52 | a process whose info read raises is skipped without changing what is kept around it |
| BackgroundFilter.SurveyedIsListed | main.py:33-48 | every process that passes the rules is in the kept list |
| BackgroundFilter.ListAppsIsSubsequence | main.py:45-48 | the kept list is an order-preserving subsequence of the processes' (name, exe) pairs |
| BackgroundFilter.ServiceAccount | main.py:42 | an account is a service account exactly when "SYSTEM", "NETWORK SERVICE" or "LOCAL SERVICE" occurs in its name at some position, case-sensitively |
| BackgroundFilter.ServiceAccountIsCaseSensitive | main.py:42-43 | an account whose name carries "SYSTEM", "NETWORK SERVICE" or "LOCAL SERVICE" is skipped, and the same account name in lower case is kept |
| BackgroundFilter.UpperUserIsServiceAccount | main.py:42-43 | "NT AUTHORITY\SYSTEM" counts as a service account |

## Findings

| source | as written | input that shows it | evidently intended | confidence | as-written member | corrected member |
|---|---|---|---|---|---|---|
| backend/app_logic.py:103-120 | when the countdown runs out, the timer thread calls `stop_session`, which clears `is_active`, sets the stop event and then joins `self.timer_thread`, the calling thread when no later start replaced it; Python raises `RuntimeError` for that join, so `session_stopped` is never emitted and the method never returns | `start_session(["A"], 1)` with `"A"` in the mapping, then no Stop press for a minute: 60 `timer_updated` emissions and no `session_stopped`; a later Stop answers "No active session" | a timer that runs out ends the session like Stop does, with exactly one `session_stopped` (for example by not joining the timer thread when it is the current thread) | high; not executed | FocusGuard.TimerExpiryIsSilent | FocusGuard.RunTimerIntendedEvents |

The rest of the model keeps the code as written (`RunTimer`, `SessionRunsToCompletion`). The corrected timer is `RunTimerIntended`, the same countdown with a timer-side stop that completes.

## Left out

- Threads: thread creation, daemon flags, the timed waits of `join(timeout=2.0)` and the sleeps (backend/app_logic.py:73-81, 100, 113-117, 149). The timer and the monitor are sequential steps, and `is_active` and the stop event are plain fields. The model keeps the two joins that raise `RuntimeError`: the latest timer thread joining itself, which ends that thread (see "Findings"), and a join of a worker whose `start()` raised (`StopSession`). Either way, `stop_session` emits and returns nothing. Only one interleaving of user and timer is modelled: a single user stop that lands just before one of the timer's reads of `is_active`. Further stops would be no-ops (`StopIdempotent`).
- psutil (backend/app_logic.py:134, 156-158; main.py:33). The process table is a sequence of names, and terminating a process removes it from the table. Which failure psutil raises only affects logging, so one flag per attempt stands for all of them.
- TerminateProcess: when psutil raises, the model terminates nothing. In the code, the debug log after `proc.terminate()` (backend/app_logic.py:159) reads the process name again. If that read raises, the method returns False even though the termination was already requested.
- MonitorPass: only the listing step is modelled as raising. `terminate_process` catches its own exceptions, and the rest of the pass does not raise on string data.
- RestartWhileActive: a second start while a session is active replaces `monitor_thread` and `timer_thread` (backend/app_logic.py:74, 79) without stopping the earlier workers. The earlier monitor keeps looping, because the stop event is cleared again (:71). The earlier timer keeps counting down its own duration. When it runs out, its `stop_session` joins the newer timer thread rather than itself. That join does not raise, so the call emits `session_stopped` and ends the new session at the earlier deadline. The model runs one timer per session (`RunTimer` on the latest start) and does not model the superseded workers.
- StartSession: a spawn error is one flag. The model does not say which of the two starts raised. If only the timer's start raised, the monitor thread keeps running, but the model attaches no timer to that session.
- StartSession: the `duration` argument only reaches the log and the timer thread, so it is a parameter of `RunTimer` and not of `StartSession`.
- JSON file I/O and logging (backend/app_logic.py:9-15, 39-40, 177-178). The loaded mapping is an optional input and the save outcome is a boolean. When the write fails, the model claims nothing about what is left on disk.
- AddThenReload: assumes that writing the mapping as JSON and reading it back gives the same entries in the same order, since `json` I/O is not modelled.
- Qt signals are entries in an event log. The window and the app cards (ui/main_window.py, ui/app_card.py) are presentation only and are not part of this model.
- Break phase, break duration and an "already active" rejection: the code implements none of them.
- `str.lower()` is modelled for ASCII letters only. Python also lower-cases other Unicode letters.
- main.py: the unused lists `available_apps`, `unwanted_app` and `important_apps` (main.py:3-6, 18) and the commented-out code are not modelled.

=== FILE: app_mappings.dfy ===
/** The display-name to process-name mapping (`app_mappings`).  The program
    keeps it in a Python dict, whose iteration order is insertion order;
    here it is a sequence of entries with pairwise distinct display names. */
module AppMappings {
  import opened Options

  /** One `display: process` pair of the mapping. */
  datatype Entry = Entry(display: string, process: string)

  /** Dict keys are unique. */
  predicate DistinctKeys(m: seq<Entry>)
  {
    forall i, j :: 0 <= i < j < |m| ==> m[i].display != m[j].display
  }

  /** An insertion-ordered dict from display names to process names. */
  type AppMap = m: seq<Entry> | DistinctKeys(m) witness []

  /** `list(app_mappings.keys())`: the display names in insertion order. */
  function Keys(m: seq<Entry>): (r: seq<string>)
    ensures |r| == |m|
    ensures forall i :: 0 <= i < |m| ==> r[i] == m[i].display
  {
    seq(|m|, i requires 0 <= i < |m| => m[i].display)
  }

  /** The position of `key` in the mapping, or `None` when it is not a key. */
  function IndexOf(m: seq<Entry>, key: string): (r: Option<nat>)
    ensures r.Some? ==> r.value < |m| && m[r.value].display == key
    ensures r.None? <==> key !in Keys(m)
  {
    if |m| == 0 then None
    else if m[0].display == key then Some(0)
    else
      match IndexOf(m[1..], key)
      case None =>
        assert Keys(m) == [m[0].display] + Keys(m[1..]);
        None
      case Some(i) => Some(i + 1)
  }

  /** `app_mappings.get(key)`. */
  function Lookup(m: AppMap, key: string): (r: Option<string>)
    ensures r.None? <==> key !in Keys(m)
    ensures r.Some? ==> exists i :: 0 <= i < |m| && m[i] == Entry(key, r.value)
  {
    match IndexOf(m, key)
    case None => None
    case Some(i) => Some(m[i].process)
  }

  /** In a mapping with distinct keys, each entry is what its key looks up. */
  lemma LookupEntry(m: AppMap, i: int)
    requires 0 <= i < |m|
    ensures Lookup(m, m[i].display) == Some(m[i].process)
  {
  }

  /** `app_mappings[key] = value`: an existing key is overwritten in place
      and keeps its position; a new key is appended at the end. */
  function Put(m: AppMap, key: string, value: string): (r: AppMap)
    ensures Lookup(r, key) == Some(value)
    ensures forall k :: k != key ==> Lookup(r, k) == Lookup(m, k)
    ensures key in Keys(m) ==> Keys(r) == Keys(m)
    ensures key !in Keys(m) ==> Keys(r) == Keys(m) + [key]
  {
    match IndexOf(m, key)
    case Some(i) =>
      var r := m[i := Entry(key, value)];
      assert Keys(r) == Keys(m);
      assert r[i] == Entry(key, value);
      LookupEntry(r, i);
      r
    case None =>
      var r := m + [Entry(key, value)];
      assert Keys(r) == Keys(m) + [key];
      LookupEntry(r, |m|);
      assert forall k :: k != key ==> Lookup(r, k) == Lookup(m, k) by {
        forall k | k != key
          ensures Lookup(r, k) == Lookup(m, k)
        {
          if k in Keys(m) {
            var j :| 0 <= j < |m| && m[j].display == k;
            LookupEntry(m, j);
            LookupEntry(r, j);
          }
        }
      }
      r
  }

  /** `load_app_mappings`: the mapping read from the resource, or the empty
      mapping when reading or parsing it failed. */
  function Load(document: Option<AppMap>): (r: AppMap)
    ensures document.None? ==> Keys(r) == []
    ensures document.Some? ==> Keys(r) == Keys(document.value)
    ensures document.Some? ==> forall k :: Lookup(r, k) == Lookup(document.value, k)
  {
    match document
    case None => []
    case Some(m) => m
  }
}

=== FILE: background_filter.dfy ===
/** The process survey of main.py: which running processes look like
    background services (`is_background_process`, main.py:21-29) and the
    loop that keeps the user-facing ones (main.py:31-52). */
module BackgroundFilter {
  import opened Options
  import opened AsciiText
  import opened Subsequences

  /** `background_keywords` (main.py:11-15), all lower case. */
  const BackgroundKeywords: seq<string> := [
    "update", "tray", "service", "clicktorun", "assistant", "monitor",
    "apmsg", "jusched", "experience", "cloud", "pluginhost", "defense",
    "watchdog", "hid", "svc", "daemon", "arm", "dns", "glidepoint", "safe"
  ]

  /** `any(keyword in lname for keyword in background_keywords)`. */
  predicate HasKeyword(lname: string)
  {
    exists i :: 0 <= i < |BackgroundKeywords| && Contains(lname, BackgroundKeywords[i])
  }

  /** `is_background_process(name, exe)`: some keyword occurs in the
      lower-cased name, or the lower-cased executable path lies under a
      "windowsapps" or "common files" directory.  Both directions hold:
      when none of the three conditions holds, the answer is false. */
  function IsBackgroundProcess(name: string, exe: string): (r: bool)
    ensures r <==> (exists i :: 0 <= i < |BackgroundKeywords| && Substring(BackgroundKeywords[i], LowerStr(name)))
                   || Substring("windowsapps", LowerStr(exe))
                   || Substring("common files", LowerStr(exe))
  {
    var lname := LowerStr(name);
    forall i | 0 <= i < |BackgroundKeywords|
      ensures Contains(lname, BackgroundKeywords[i]) <==> Substring(BackgroundKeywords[i], lname)
    {
      ContainsIffOccurs(lname, BackgroundKeywords[i]);
    }
    ContainsIffOccurs(LowerStr(exe), "windowsapps");
    ContainsIffOccurs(LowerStr(exe), "common files");
    if HasKeyword(lname) then true
    else if Contains(LowerStr(exe), "windowsapps") then true
    else if Contains(LowerStr(exe), "common files") then true
    else false
  }

  /** The classification depends on `name` and `exe` only up to letter
      case. */
  lemma BackgroundIgnoresCase(name: string, exe: string, name': string, exe': string)
    requires LowerStr(name) == LowerStr(name')
    requires LowerStr(exe) == LowerStr(exe')
    ensures IsBackgroundProcess(name, exe) == IsBackgroundProcess(name', exe')
  {
  }

  /** In particular, classifying the lower-cased name and path gives the
      same answer as classifying the originals. */
  lemma BackgroundOfLowered(name: string, exe: string)
    ensures IsBackgroundProcess(LowerStr(name), LowerStr(exe)) == IsBackgroundProcess(name, exe)
  {
    LowerStrIdempotent(name);
    LowerStrIdempotent(exe);
    BackgroundIgnoresCase(LowerStr(name), LowerStr(exe), name, exe);
  }

  /** What reading a process's info yields: the three fields, each possibly
      `None`, or one of the exceptions the loop catches. */
  datatype ProcError = NoSuchProcess | AccessDenied | ZombieProcess
  datatype ProcRecord =
    | Info(name: Option<string>, exe: Option<string>, username: Option<string>)
    | Raised(error: ProcError)

  /** `'SYSTEM' in user or 'NETWORK SERVICE' in user or 'LOCAL SERVICE' in
      user`, case-sensitive. */
  function ServiceAccount(user: string): (r: bool)
    ensures r <==> Substring("SYSTEM", user) || Substring("NETWORK SERVICE", user)
                   || Substring("LOCAL SERVICE", user)
  {
    ContainsIffOccurs(user, "SYSTEM");
    ContainsIffOccurs(user, "NETWORK SERVICE");
    ContainsIffOccurs(user, "LOCAL SERVICE");
    Contains(user, "SYSTEM") || Contains(user, "NETWORK SERVICE") || Contains(user, "LOCAL SERVICE")
  }

  /** A name or path that is missing or empty (`not name`). */
  predicate Blank(s: Option<string>)
  {
    s.None? || s.value == ""
  }

  /** The body of the survey loop for one process: the `(name, exe)` pair
      appended to `apps`, or `None` when one of the `continue`s is taken. */
  function Survey(rec: ProcRecord): (r: Option<(string, string)>)
    ensures r.Some? <==> && rec.Info?
                         && !Blank(rec.name) && !Blank(rec.exe)
                         && !(rec.username.Some? && ServiceAccount(rec.username.value))
                         && !IsBackgroundProcess(rec.name.value, rec.exe.value)
    ensures r.Some? ==> r.value == (rec.name.value, rec.exe.value)
  {
    match rec
    case Raised(_) => None
    case Info(name, exe, user) =>
      if Blank(name) || Blank(exe) then None
      else if user.Some? && user.value != "" && ServiceAccount(user.value) then None
      else if IsBackgroundProcess(name.value, exe.value) then None
      else Some((name.value, exe.value))
  }

  /** The `apps` list the loop builds from the processes in iteration
      order. */
  function ListApps(procs: seq<ProcRecord>): (r: seq<(string, string)>)
    ensures |r| <= |procs|
    ensures forall k :: 0 <= k < |r| ==>
              r[k].0 != "" && r[k].1 != "" && !IsBackgroundProcess(r[k].0, r[k].1)
    ensures forall x :: x in r ==> exists i :: 0 <= i < |procs| && Survey(procs[i]) == Some(x)
  {
    if |procs| == 0 then []
    else
      var rest := ListApps(procs[1..]);
      assert forall i :: 0 < i < |procs| ==> procs[1..][i - 1] == procs[i];
      match Survey(procs[0])
      case Some(x) => [x] + rest
      case None => rest
  }

  /** The survey of `a + b` is the survey of `a` followed by that of `b`:
      each process is judged on its own and the order is kept. */
  lemma {:induction false} ListAppsAppend(a: seq<ProcRecord>, b: seq<ProcRecord>)
    ensures ListApps(a + b) == ListApps(a) + ListApps(b)
    decreases |a|
  {
    if |a| == 0 {
      assert a + b == b;
    } else {
      assert (a + b)[1..] == a[1..] + b;
      ListAppsAppend(a[1..], b);
    }
  }

  /** A process whose info read raises is skipped and changes nothing for
      the processes around it. */
  lemma RaisedIsSkipped(a: seq<ProcRecord>, e: ProcError, b: seq<ProcRecord>)
    ensures ListApps(a + [Raised(e)] + b) == ListApps(a) + ListApps(b)
  {
    var raised := [Raised(e)];
    assert ListApps(raised) == [] by {
      assert Survey(raised[0]).None?;
      assert raised[1..] == [];
    }
    ListAppsAppend(a + raised, b);
    ListAppsAppend(a, raised);
    assert ListApps(a) + ListApps(raised) == ListApps(a);
  }

  /** Every process that passes the per-process rules is in the list. */
  lemma {:induction false} SurveyedIsListed(procs: seq<ProcRecord>, i: int)
    requires 0 <= i < |procs|
    requires Survey(procs[i]).Some?
    ensures Survey(procs[i]).value in ListApps(procs)
    decreases i
  {
    if i > 0 {
      assert procs[1..][i - 1] == procs[i];
      SurveyedIsListed(procs[1..], i - 1);
    }
  }

  /** The `(name, exe)` pair of every process whose info has both. */
  function NamedPairs(procs: seq<ProcRecord>): seq<(string, string)>
  {
    if |procs| == 0 then []
    else if procs[0].Info? && procs[0].name.Some? && procs[0].exe.Some?
    then [(procs[0].name.value, procs[0].exe.value)] + NamedPairs(procs[1..])
    else NamedPairs(procs[1..])
  }

  /** The kept list is an order-preserving selection from the processes'
      `(name, exe)` pairs. */
  lemma {:induction false} ListAppsIsSubsequence(procs: seq<ProcRecord>)
    ensures IsSubsequence(ListApps(procs), NamedPairs(procs))
  {
    if |procs| > 0 {
      ListAppsIsSubsequence(procs[1..]);
      var rest := ListApps(procs[1..]);
      var pairs := NamedPairs(procs[1..]);
      if procs[0].Info? && procs[0].name.Some? && procs[0].exe.Some? {
        var pair := (procs[0].name.value, procs[0].exe.value);
        assert ([pair] + pairs)[1..] == pairs;
        if Survey(procs[0]).Some? {
          assert ([pair] + rest)[1..] == rest;
        } else {
          SkipHead(rest, pair, pairs);
        }
      }
    }
  }

  /** A subsequence of `ys` is a subsequence of `[y] + ys`. */
  lemma SkipHead<T>(xs: seq<T>, y: T, ys: seq<T>)
    requires IsSubsequence(xs, ys)
    ensures IsSubsequence(xs, [y] + ys)
  {
    assert ([y] + ys)[1..] == ys;
  }

  /** The service-account check is case-sensitive: a process owned by an
      account whose name carries one of the markers is skipped, while the
      same account name spelled in lower case lets the process through. */
  lemma ServiceAccountIsCaseSensitive(name: string, exe: string, user: string)
    requires name != "" && exe != ""
    requires !IsBackgroundProcess(name, exe)
    requires ServiceAccount(user)
    ensures Survey(Info(Some(name), Some(exe), Some(user))).None?
    ensures Survey(Info(Some(name), Some(exe), Some(LowerStr(user)))) == Some((name, exe))
  {
    LowerStrIdempotent(user);
    NoCapitalsNoMarker(LowerStr(user), "SYSTEM");
    NoCapitalsNoMarker(LowerStr(user), "NETWORK SERVICE");
    NoCapitalsNoMarker(LowerStr(user), "LOCAL SERVICE");
  }

  /** The account Windows services run under carries the marker. */
  lemma UpperUserIsServiceAccount()
    ensures ServiceAccount("NT AUTHORITY\\SYSTEM")
  {
    var user := "NT AUTHORITY\\SYSTEM";
    assert user[13..19] == "SYSTEM";
    assert OccursAt(user, "SYSTEM", 13);
    OccursAtContains(user, "SYSTEM", 13);
  }

  /** A string without capitals does not contain a needle that starts
      with one. */
  lemma NoCapitalsNoMarker(haystack: string, needle: string)
    requires IsLower(haystack)
    requires |needle| > 0 && 'A' <= needle[0] <= 'Z'
    ensures !Contains(haystack, needle)
  {
    forall i | 0 <= i && i + |needle| <= |haystack|
      ensures !OccursAt(haystack, needle, i)
    {
      assert haystack[i..i + |needle|][0] == haystack[i];
      assert !('A' <= haystack[i] <= 'Z');
    }
    ContainsIffOccurs(haystack, needle);
  }
}

=== FILE: focus_guard.dfy ===
/** The `FocusGuard` session controller (backend/app_logic.py:17-183) as an
    immutable state record with step functions.  The Qt signals become an
    append-only event log; the two worker threads become sequential steps:
    `RunTimer` is the whole life of the timer thread and `MonitorPass` one
    iteration of the monitor thread's loop. */
module FocusGuard {
  import opened Options
  import opened AppMappings
  import opened SessionLists
  import opened ProcessTable
  import opened Subsequences
  import AsciiText

  /** One emission of a signal of the class. */
  datatype Event =
    | SessionStarted(message: string)
    | SessionStopped(message: string)
    | AppBlocked(process: string)
    | StatusChanged(text: string)
    | TimerUpdated(minutes: int, seconds: int)

  /** The fields of a `FocusGuard` that the session logic reads and writes.
      `stopSet` is whether `stop_event` is set.  `unstartedWorker` is
      whether `monitor_thread` or `timer_thread` holds a thread whose
      `start()` raised: the attribute is assigned before `start()` is
      called, so a failed start leaves an unstarted thread there. */
  datatype Guard = Guard(
    mappings: AppMap,
    allowedProcesses: seq<string>,
    blockList: seq<string>,
    isActive: bool,
    stopSet: bool,
    unstartedWorker: bool,
    events: seq<Event>)

  const EmptySelectionMessage: string := "Select at least one app to start session"
  const StartedMessage: string := "Session started successfully"
  const StoppedMessage: string := "Session stopped"
  const NoSessionMessage: string := "No active session"

  /** `get_app_list`: the display names, in insertion order, each listed
      once, and exactly the names the mapping knows. */
  function GetAppList(g: Guard): (r: seq<string>)
    ensures |r| == |g.mappings|
    ensures forall i :: 0 <= i < |r| ==> r[i] == g.mappings[i].display
    ensures forall i, j :: 0 <= i < j < |r| ==> r[i] != r[j]
    ensures forall k :: k in r <==> Lookup(g.mappings, k).Some?
  {
    Keys(g.mappings)
  }

  /** `__init__`: nothing allowed or blocked, inactive, stop event clear,
      no worker threads, and the mapping as `load_app_mappings` found it
      (empty if the resource could not be read). */
  function Init(document: Option<AppMap>): (g: Guard)
    ensures !g.isActive && !g.stopSet && !g.unstartedWorker
    ensures g.allowedProcesses == [] && g.blockList == [] && g.events == []
    ensures g.mappings == Load(document)
    ensures document.None? ==> GetAppList(g) == []
    ensures document.Some? ==> GetAppList(g) == Keys(document.value)
  {
    Guard(Load(document), [], [], false, false, false, [])
  }

  /** The state after `start_session` and the value it returns (`None` for
      the bare `return` of the empty-selection path). */
  datatype Started = Started(guard: Guard, reply: Option<string>)

  /** `start_session(allowed_apps, duration)`.  With nothing selected it only
      emits a warning.  Otherwise it derives the two lists, marks the session
      active, clears the stop event and starts the two workers; there is no
      check for a session already running.  `spawnError` stands for starting
      a worker thread raising: the state changes have already happened, the
      unstarted thread stays in its attribute, and the error text is emitted
      and returned instead of the success message.  A start whose workers
      both start replaces any unstarted thread.  The duration only reaches
      the timer worker, modelled by `RunTimer`. */
  function StartSession(g: Guard, allowedApps: seq<string>, spawnError: Option<string>): (r: Started)
    ensures |allowedApps| == 0 ==>
              r.reply.None?
              && r.guard == g.(events := g.events + [SessionStarted(EmptySelectionMessage)])
    ensures |allowedApps| > 0 ==>
              r.guard.isActive && !r.guard.stopSet
              && r.guard.mappings == g.mappings
              && r.guard.allowedProcesses == AllowedProcesses(g.mappings, allowedApps)
              && r.guard.blockList == BlockList(g.mappings, allowedApps)
              && r.guard.unstartedWorker == spawnError.Some?
              && r.reply.Some?
              && r.guard.events == g.events + [SessionStarted(r.reply.value)]
    ensures |allowedApps| > 0 && spawnError.None? ==> r.reply == Some(StartedMessage)
    ensures |allowedApps| > 0 && spawnError.Some? ==> r.reply == Some("Error: " + spawnError.value)
  {
    if |allowedApps| == 0 then
      Started(g.(events := g.events + [SessionStarted(EmptySelectionMessage)]), None)
    else
      var message := match spawnError
        case None => StartedMessage
        case Some(e) => "Error: " + e;
      var started := g.(allowedProcesses := AllowedProcesses(g.mappings, allowedApps),
                        blockList := BlockList(g.mappings, allowedApps),
                        isActive := true,
                        stopSet := false,
                        unstartedWorker := spawnError.Some?,
                        events := g.events + [SessionStarted(message)]);
      Started(started, Some(message))
  }

  /** The state after `stop_session` and the message it returns, `None`
      when the call raised. */
  datatype Stopped = Stopped(guard: Guard, reply: Option<string>)

  /** `stop_session` called from outside the timer thread: an active
      session is marked inactive and the stop event is set.  Then the
      worker threads are joined.  When both had started, one
      `session_stopped` is emitted and "Session stopped" returned; when one
      of them never started, Python raises `RuntimeError` at its join, so
      nothing is emitted or returned.  An inactive session is left alone.
      The two-second wait of each join is not modelled. */
  function StopSession(g: Guard): (r: Stopped)
    ensures !r.guard.isActive
    ensures r.guard.mappings == g.mappings && r.guard.allowedProcesses == g.allowedProcesses
            && r.guard.blockList == g.blockList && r.guard.unstartedWorker == g.unstartedWorker
    ensures g.isActive ==> r.guard.stopSet
    ensures g.isActive && !g.unstartedWorker ==>
              r.reply == Some(StoppedMessage)
              && r.guard.events == g.events + [SessionStopped(StoppedMessage)]
    ensures g.isActive && g.unstartedWorker ==> r.reply.None? && r.guard.events == g.events
    ensures !g.isActive ==> r == Stopped(g, Some(NoSessionMessage))
  {
    if !g.isActive then Stopped(g, Some(NoSessionMessage))
    else
      var cleared := g.(isActive := false, stopSet := true);
      if g.unstartedWorker then Stopped(cleared, None)
      else Stopped(cleared.(events := g.events + [SessionStopped(StoppedMessage)]), Some(StoppedMessage))
  }

  /** Stopping twice is stopping once: the second call changes nothing,
      emits nothing and answers that no session is active. */
  lemma StopIdempotent(g: Guard)
    ensures StopSession(StopSession(g).guard) == Stopped(StopSession(g).guard, Some(NoSessionMessage))
    ensures |StopSession(StopSession(g).guard).guard.events| <= |g.events| + 1
  {
  }

  /** A second start while a session runs is not refused: it recomputes the
      lists from the new selection and reports success again. */
  lemma RestartWhileActive(g: Guard, allowedApps: seq<string>)
    requires g.isActive
    requires |allowedApps| > 0
    ensures StartSession(g, allowedApps, None).reply == Some(StartedMessage)
    ensures StartSession(g, allowedApps, None).guard.blockList == BlockList(g.mappings, allowedApps)
  {
  }

  /** After a start whose worker failed to start, the next Stop ends the
      session but raises at the join of the unstarted thread: no
      `session_stopped` is emitted and nothing is returned.  A later start
      whose workers do start makes Stop work again. */
  lemma StopAfterSpawnError(g: Guard, allowedApps: seq<string>, error: string)
    requires |allowedApps| > 0
    ensures var s := StartSession(g, allowedApps, Some(error)).guard;
            var t := StopSession(s);
            && !t.guard.isActive && t.guard.stopSet
            && t.reply.None?
            && t.guard.events == g.events + [SessionStarted("Error: " + error)]
            && StopSession(StartSession(t.guard, allowedApps, None).guard).reply == Some(StoppedMessage)
  {
  }

  // ---------------------------------------------------------------------
  // The timer worker

  /** The `timer_updated` emission for `t` seconds left: `divmod(t, 60)`. */
  function Tick(t: int): Event
  {
    TimerUpdated(t / 60, t % 60)
  }

  /** The ticks an uninterrupted countdown from `total` seconds emits, in
      order: one for each of `total`, `total - 1`, ..., 1. */
  function TickEvents(total: int): (r: seq<Event>)
    ensures |r| == if total > 0 then total else 0
  {
    seq(if total > 0 then total else 0, i requires 0 <= i => Tick(total - i))
  }

  /** Every tick carries the minutes and seconds of a remaining time between
      `total` and 1, counting down by one second; seconds stay in 0..59 and
      `00:00` is never shown. */
  lemma TickEventsCountDown(total: int)
    ensures forall i :: 0 <= i < |TickEvents(total)| ==>
              var e := TickEvents(total)[i];
              && e.TimerUpdated?
              && 0 <= e.seconds < 60
              && e.minutes * 60 + e.seconds == total - i
              && !(e.minutes == 0 && e.seconds == 0)
  {
    forall i | 0 <= i < |TickEvents(total)|
      ensures TickEvents(total)[i] == TimerUpdated((total - i) / 60, (total - i) % 60)
      ensures (total - i) / 60 * 60 + (total - i) % 60 == total - i > 0
    {
      var t := total - i;
      assert TickEvents(total)[i] == Tick(t);
      assert t == t / 60 * 60 + t % 60;
    }
  }

  /** The user's `stop_session` call racing with the timer: when
      `interruptAfter` is `Some(k)`, it runs after the timer has emitted `k`
      ticks, just before the timer next reads `is_active`. */
  function Interrupt(g: Guard, interruptAfter: Option<nat>, emitted: nat): Guard
  {
    if interruptAfter == Some(emitted) then StopSession(g).guard else g
  }

  /** The `while total_seconds > 0 and self.is_active` loop with `remaining`
      seconds left and `emitted` ticks already sent, followed by the final
      `if self.is_active: self.stop_session()`, for the timer that
      `timer_thread` names, that is, the one launched by the latest start.
      That last call runs on the timer thread.  As written (`skipsSelfJoin`
      false), `stop_session` clears `is_active` and sets the stop event,
      then joins `timer_thread`, which is the thread making the call;
      Python raises `RuntimeError` for that join, so neither the
      `session_stopped` emission nor the return is reached and the
      exception ends the thread.  With `skipsSelfJoin` the timer's own stop
      leaves out that join and completes like a user's stop.  A timer
      superseded by a later start is not modelled. */
  function Countdown(g: Guard, remaining: int, emitted: nat, interruptAfter: Option<nat>,
                     skipsSelfJoin: bool): (r: Guard)
    ensures !r.isActive
    ensures g.isActive ==> r.stopSet
    ensures r.mappings == g.mappings && r.allowedProcesses == g.allowedProcesses
            && r.blockList == g.blockList
    ensures !g.isActive ==> r == g
    decreases if remaining > 0 then remaining else 0
  {
    var h := Interrupt(g, interruptAfter, emitted);
    if remaining > 0 && h.isActive then
      Countdown(h.(events := h.events + [Tick(remaining)]), remaining - 1, emitted + 1,
                interruptAfter, skipsSelfJoin)
    else if h.isActive then
      if skipsSelfJoin then StopSession(h).guard
      else h.(isActive := false, stopSet := true)
    else h
  }

  /** The ticks `run_timer(d)` emits before the session ends: those of the
      whole countdown, or those before the user's stop. */
  function TicksOf(durationMinutes: int, interruptAfter: Option<nat>): seq<Event>
  {
    TickEvents(durationMinutes * 60)[..TicksBeforeStop(durationMinutes * 60, interruptAfter)]
  }

  /** `run_timer(duration_minutes)`, start to finish, as written.  On an
      active session: `d * 60` ticks counting down to one second if nobody
      interrupts (fewer if the user stops first), and the session ends
      inactive with the stop event set.  Only a user's stop that completes
      emits `session_stopped`; when the timer runs out, none is emitted.
      On an inactive session the timer does nothing. */
  function RunTimer(g: Guard, durationMinutes: int, interruptAfter: Option<nat>): (r: Guard)
    ensures !r.isActive
    ensures g.isActive ==> r.stopSet
    ensures g.isActive ==>
              r.events == g.events + TicksOf(durationMinutes, interruptAfter)
                          + StopEvents(durationMinutes * 60, interruptAfter, false, g.unstartedWorker)
    ensures g.isActive && interruptAfter.None? ==>
              r.events == g.events + TickEvents(durationMinutes * 60)
    ensures !g.isActive ==> r == g
  {
    var total := durationMinutes * 60;
    if g.isActive then
      CountdownEvents(g, total, total, 0, interruptAfter, false);
      assert TickEvents(total)[0..TicksBeforeStop(total, interruptAfter)]
          == TickEvents(total)[..TicksBeforeStop(total, interruptAfter)];
      assert interruptAfter.None? ==> TickEvents(total)[..TicksBeforeStop(total, interruptAfter)] == TickEvents(total);
      Countdown(g, total, 0, interruptAfter, false)
    else
      Countdown(g, total, 0, interruptAfter, false)
  }

  /** `run_timer(duration_minutes)` with a timer-side stop that does not
      join its own thread. */
  function RunTimerIntended(g: Guard, durationMinutes: int, interruptAfter: Option<nat>): Guard
  {
    Countdown(g, durationMinutes * 60, 0, interruptAfter, true)
  }

  /** How many ticks the timer emits: all of them, unless the user's stop
      comes first. */
  function TicksBeforeStop(total: int, interruptAfter: Option<nat>): nat
  {
    var all := if total > 0 then total else 0;
    if interruptAfter.Some? && interruptAfter.value < all then interruptAfter.value else all
  }

  /** The user's stop lands while the timer still runs: at the latest just
      after the last tick, before the timer's final read of `is_active`. */
  predicate UserStopsFirst(total: int, interruptAfter: Option<nat>)
  {
    interruptAfter.Some? && interruptAfter.value <= (if total > 0 then total else 0)
  }

  /** The `session_stopped` emissions that end a countdown: one from the
      user's stop, or from a timer-side stop that completes; none when the
      stop raises at a join, of the timer's own thread or of a worker that
      never started. */
  function StopEvents(total: int, interruptAfter: Option<nat>, skipsSelfJoin: bool,
                      unstartedWorker: bool): seq<Event>
  {
    if !unstartedWorker && (UserStopsFirst(total, interruptAfter) || skipsSelfJoin)
    then [SessionStopped(StoppedMessage)]
    else []
  }

  /** The step of the countdown that ends it: the user's stop lands now,
      or no seconds are left.  No further tick is emitted, and the stop
      event is set. */
  lemma CountdownEndsNow(g: Guard, total: int, remaining: int, emitted: nat,
                         interruptAfter: Option<nat>, skipsSelfJoin: bool)
    requires g.isActive
    requires remaining == total - emitted
    requires emitted <= TicksBeforeStop(total, interruptAfter)
    requires interruptAfter == Some(emitted) || remaining <= 0
    ensures emitted == TicksBeforeStop(total, interruptAfter)
    ensures Countdown(g, remaining, emitted, interruptAfter, skipsSelfJoin).stopSet
    ensures Countdown(g, remaining, emitted, interruptAfter, skipsSelfJoin).events
            == g.events + StopEvents(total, interruptAfter, skipsSelfJoin, g.unstartedWorker)
  {
    if interruptAfter == Some(emitted) {
      assert UserStopsFirst(total, interruptAfter);
      assert Countdown(g, remaining, emitted, interruptAfter, skipsSelfJoin) == StopSession(g).guard;
    } else {
      assert !UserStopsFirst(total, interruptAfter);
      assert Countdown(g, remaining, emitted, interruptAfter, skipsSelfJoin)
          == if skipsSelfJoin then StopSession(g).guard else g.(isActive := false, stopSet := true);
    }
  }

  /** The countdown from `remaining` seconds, on an active session, emits the
      next ticks of the full countdown up to the stop and always leaves the
      stop event set.  A `session_stopped` follows when the user stopped the
      session, or when the timer's own stop completes, provided both workers
      started; as written, a timer that runs out emits none. */
  lemma {:induction false} CountdownEvents(g: Guard, total: int, remaining: int, emitted: nat,
                                           interruptAfter: Option<nat>, skipsSelfJoin: bool)
    requires g.isActive
    requires remaining == total - emitted
    requires emitted <= TicksBeforeStop(total, interruptAfter)
    ensures Countdown(g, remaining, emitted, interruptAfter, skipsSelfJoin).stopSet
    ensures Countdown(g, remaining, emitted, interruptAfter, skipsSelfJoin).events
            == g.events + TickEvents(total)[emitted..TicksBeforeStop(total, interruptAfter)]
               + StopEvents(total, interruptAfter, skipsSelfJoin, g.unstartedWorker)
    decreases if remaining > 0 then remaining else 0
  {
    var n := TicksBeforeStop(total, interruptAfter);
    if interruptAfter == Some(emitted) || remaining <= 0 {
      CountdownEndsNow(g, total, remaining, emitted, interruptAfter, skipsSelfJoin);
      assert TickEvents(total)[emitted..n] == [];
    } else {
      var next := g.(events := g.events + [Tick(remaining)]);
      assert Countdown(g, remaining, emitted, interruptAfter, skipsSelfJoin)
          == Countdown(next, remaining - 1, emitted + 1, interruptAfter, skipsSelfJoin);
      CountdownEvents(next, total, remaining - 1, emitted + 1, interruptAfter, skipsSelfJoin);
      assert TickEvents(total)[emitted] == Tick(remaining);
      assert TickEvents(total)[emitted..n] == [Tick(remaining)] + TickEvents(total)[emitted + 1..n];
    }
  }

  /** A whole session left alone, as written: started with a non-empty
      selection, its timer runs `d` minutes down and leaves the session
      inactive with the stop event set, but no `session_stopped` is ever
      emitted; a later press of Stop finds no active session and emits
      nothing either. */
  lemma SessionRunsToCompletion(g: Guard, allowedApps: seq<string>, durationMinutes: int)
    requires |allowedApps| > 0
    ensures var s := StartSession(g, allowedApps, None).guard;
            var e := RunTimer(s, durationMinutes, None);
            && !e.isActive && e.stopSet
            && e.events == g.events + [SessionStarted(StartedMessage)] + TickEvents(durationMinutes * 60)
            && StopSession(e) == Stopped(e, Some(NoSessionMessage))
  {
  }

  /** As written, a timer that runs out ends the session without any
      `session_stopped`: every event it adds is a tick. */
  lemma TimerExpiryIsSilent(g: Guard, durationMinutes: int)
    requires g.isActive
    ensures var e := RunTimer(g, durationMinutes, None);
            && !e.isActive && e.stopSet
            && |g.events| <= |e.events|
            && forall i :: |g.events| <= i < |e.events| ==> e.events[i].TimerUpdated?
  {
    var total := durationMinutes * 60;
    TickEventsCountDown(total);
    var e := RunTimer(g, durationMinutes, None);
    forall i | |g.events| <= i < |e.events|
      ensures e.events[i].TimerUpdated?
    {
      assert e.events[i] == TickEvents(total)[i - |g.events|];
    }
  }

  /** With a timer-side stop that does not join its own thread, every
      session the timer ends emits exactly one `session_stopped`, after the
      ticks, whether the timer ran out or the user stopped first, as long
      as both workers started. */
  lemma RunTimerIntendedEvents(g: Guard, durationMinutes: int, interruptAfter: Option<nat>)
    requires g.isActive
    ensures var e := RunTimerIntended(g, durationMinutes, interruptAfter);
            && !e.isActive && e.stopSet
            && (!g.unstartedWorker ==>
                  e.events == g.events + TicksOf(durationMinutes, interruptAfter) + [SessionStopped(StoppedMessage)])
            && (g.unstartedWorker ==> e.events == g.events + TicksOf(durationMinutes, interruptAfter))
  {
    var total := durationMinutes * 60;
    CountdownEvents(g, total, total, 0, interruptAfter, true);
    assert TickEvents(total)[0..TicksBeforeStop(total, interruptAfter)]
        == TickEvents(total)[..TicksBeforeStop(total, interruptAfter)];
  }

  // ---------------------------------------------------------------------
  // The monitor worker

  /** The state after one monitoring pass, the monitor thread's running
      `blocked_count` and the process table it leaves. */
  datatype Monitored = Monitored(guard: Guard, blockedCount: nat, table: seq<string>)

  /** One `app_blocked` emission per name. */
  function BlockedEvents(names: seq<string>): (r: seq<Event>)
    ensures |r| == |names|
    ensures forall i :: 0 <= i < |names| ==> r[i] == AppBlocked(names[i])
  {
    seq(|names|, i requires 0 <= i < |names| => AppBlocked(names[i]))
  }

  /** One iteration of `monitor_processes`.  Once the stop event is set the
      loop has ended and nothing happens.  Otherwise the processes in
      `table` are listed (if `listingError` is `Some(e)` the listing raised
      and only a status message is emitted), and each block-list entry seen
      in the listing is terminated, counted and reported.  `raises` holds
      the block-list positions whose termination raises.  The five-second
      sleep is not modelled. */
  function MonitorPass(g: Guard, blockedCount: nat, table: seq<string>,
                       listingError: Option<string>, raises: set<nat>): (r: Monitored)
    ensures r.guard == g.(events := r.guard.events)
    ensures g.stopSet ==> r == Monitored(g, blockedCount, table)
    ensures blockedCount <= r.blockedCount <= blockedCount + |g.blockList|
    ensures !g.stopSet && listingError.Some? ==>
              r == Monitored(g.(events := g.events + [StatusChanged("Monitoring error: " + listingError.value)]),
                             blockedCount, table)
    ensures listingError.None? ==>
              exists blocked: seq<string> ::
                && r.guard.events == g.events + BlockedEvents(blocked)
                && r.blockedCount == blockedCount + |blocked|
                && |r.table| == |table| - |blocked|
                && RemovesOnePerName(table, r.table, blocked)
                && IsSubsequence(blocked, g.blockList)
                && forall p :: p in blocked ==> Running(table, p)
  {
    if g.stopSet then
      RemovesNothing(table);
      assert g.events + BlockedEvents([]) == g.events;
      Monitored(g, blockedCount, table)
    else
      match listingError
      case Some(e) =>
        Monitored(g.(events := g.events + [StatusChanged("Monitoring error: " + e)]), blockedCount, table)
      case None =>
        var sweep := SweepAll(g.blockList, table, table, raises);
        var r := Monitored(g.(events := g.events + BlockedEvents(sweep.blocked)),
                           blockedCount + |sweep.blocked|, sweep.table);
        assert r.guard.events == g.events + BlockedEvents(sweep.blocked);
        r
  }

  /** When the block list names distinct programs and the listing
      succeeds, one pass blocks exactly the block-listed programs that are
      running and whose termination does not raise, in block-list order,
      each reported and counted once; a raising termination is neither
      reported nor counted. */
  lemma MonitorPassBlocksRunning(g: Guard, blockedCount: nat, table: seq<string>, raises: set<nat>)
    requires !g.stopSet
    requires DistinctNames(g.blockList)
    ensures MonitorPass(g, blockedCount, table, None, raises).guard.events
            == g.events + BlockedEvents(RunningEntries(g.blockList, 0, table, raises))
    ensures MonitorPass(g, blockedCount, table, None, raises).blockedCount
            == blockedCount + |RunningEntries(g.blockList, 0, table, raises)|
  {
    SweepBlocksEveryRunningEntry(g.blockList, 0, table, table, raises);
  }

  /** Whatever the block list, including repeated names: when the listing
      succeeds, every block-list entry that is running and whose
      termination does not raise is matched by some `app_blocked` emission
      of the pass. */
  lemma MonitorPassReportsEveryRunningEntry(g: Guard, blockedCount: nat, table: seq<string>,
                                            raises: set<nat>, k: nat)
    requires !g.stopSet
    requires k < |g.blockList| && k !in raises
    requires Running(table, g.blockList[k])
    ensures var r := MonitorPass(g, blockedCount, table, None, raises);
            exists p :: AppBlocked(p) in r.guard.events[|g.events|..] && SameName(p, g.blockList[k])
  {
    var sweep := SweepAll(g.blockList, table, table, raises);
    SweepFromCovers(g.blockList, 0, table, table, raises, k);
    var p :| p in sweep.blocked && SameName(p, g.blockList[k]);
    var r := MonitorPass(g, blockedCount, table, None, raises);
    var n :| 0 <= n < |sweep.blocked| && sweep.blocked[n] == p;
    assert r.guard.events[|g.events|..] == BlockedEvents(sweep.blocked);
    assert BlockedEvents(sweep.blocked)[n] == AppBlocked(p);
  }

  /** After the session has been stopped, a monitoring pass blocks nothing
      and emits nothing. */
  lemma NoBlockingAfterStop(g: Guard, blockedCount: nat, table: seq<string>,
                            listingError: Option<string>, raises: set<nat>)
    requires g.isActive
    ensures var s := StopSession(g).guard;
            MonitorPass(s, blockedCount, table, listingError, raises) == Monitored(s, blockedCount, table)
  {
  }

  /** The worked example: with "b.exe" on the block list and a "b.exe"
      process running, one pass reports it blocked. */
  lemma BlocksRunningExample(g: Guard)
    requires !g.stopSet
    requires g.blockList == ["b.exe"]
    ensures MonitorPass(g, 0, ["b.exe"], None, {}) == Monitored(g.(events := g.events + [AppBlocked("b.exe")]), 1, [])
  {
    var bl := g.blockList;
    assert LowerAll(bl)[0] == AsciiText.LowerStr("b.exe");
    assert FindFirst(bl, "b.exe") == Some(0);
    assert SweepFrom(bl, 1, bl, [], {}) == Sweep([], []);
    assert SweepFrom(bl, 0, bl, bl, {}) == Sweep(["b.exe"], []);
    assert BlockedEvents(["b.exe"]) == [AppBlocked("b.exe")];
  }

  // ---------------------------------------------------------------------
  // Mapping maintenance

  /** The state after `add_custom_app`, its return value, and the document
      written to the mapping resource when the write succeeded. */
  datatype Added = Added(guard: Guard, ok: bool, saved: Option<AppMap>)

  /** `add_custom_app(display_name, process_name)`: the in-memory mapping is
      updated first; then the whole mapping is written out.  `saveOk` is
      whether that write succeeded; when it fails the method returns false
      but the in-memory update stays. */
  function AddCustomApp(g: Guard, displayName: string, processName: string, saveOk: bool): (r: Added)
    ensures displayName in GetAppList(r.guard)
    ensures Lookup(r.guard.mappings, displayName) == Some(processName)
    ensures forall k :: k != displayName ==> Lookup(r.guard.mappings, k) == Lookup(g.mappings, k)
    ensures displayName in GetAppList(g) ==> GetAppList(r.guard) == GetAppList(g)
    ensures displayName !in GetAppList(g) ==> GetAppList(r.guard) == GetAppList(g) + [displayName]
    ensures r.guard == g.(mappings := r.guard.mappings)
    ensures r.ok == saveOk
    ensures saveOk ==> r.saved == Some(r.guard.mappings)
    ensures !saveOk ==> r.saved.None?
  {
    var m := Put(g.mappings, displayName, processName);
    Added(g.(mappings := m), saveOk, if saveOk then Some(m) else None)
  }

  /** Reloading what `add_custom_app` wrote gives back the new entry, and
      the display name is listed again after the reload. */
  lemma AddThenReload(g: Guard, displayName: string, processName: string)
    ensures var r := AddCustomApp(g, displayName, processName, true);
            && Lookup(Init(r.saved).mappings, displayName) == Some(processName)
            && GetAppList(Init(r.saved)) == GetAppList(r.guard)
  {
  }
}

=== FILE: options.dfy ===
/** The optional value used wherever the program returns `None`, reads a
    missing key or may fail to load a resource. */
module Options {

  datatype Option<T> = None | Some(value: T)
}

=== FILE: process_table.dfy ===
/** The process-level half of the monitor: `terminate_process`
    (backend/app_logic.py:153-167) and the walk over the block list inside
    one monitoring pass (backend/app_logic.py:134-142).  The operating
    system's process table is a sequence of process names; terminating a
    process removes it from the table. */
module ProcessTable {
  import opened Options
  import opened AsciiText
  import opened Subsequences

  /** `a.lower() == b.lower()`: names compared without regard to case. */
  predicate SameName(a: string, b: string)
  {
    LowerStr(a) == LowerStr(b)
  }

  /** Some process in `table` has name `name`, ignoring case. */
  ghost predicate Running(table: seq<string>, name: string)
  {
    exists j :: 0 <= j < |table| && SameName(table[j], name)
  }

  /** `[p.name().lower() for p in psutil.process_iter(['name'])]`. */
  function LowerAll(table: seq<string>): (r: seq<string>)
    ensures |r| == |table|
    ensures forall j :: 0 <= j < |table| ==> r[j] == LowerStr(table[j])
  {
    seq(|table|, j requires 0 <= j < |table| => LowerStr(table[j]))
  }

  /** `process.lower() in current_processes`, against the lower-cased
      snapshot, is the case-insensitive membership test. */
  lemma InSnapshotIffRunning(snapshot: seq<string>, name: string)
    ensures LowerStr(name) in LowerAll(snapshot) <==> Running(snapshot, name)
  {
    var lowered := LowerAll(snapshot);
    if LowerStr(name) in lowered {
      var j :| 0 <= j < |lowered| && lowered[j] == LowerStr(name);
      assert SameName(snapshot[j], name);
    }
  }

  /** The position of the first process whose name matches `name`, in the
      order `psutil.process_iter` yields them. */
  function FindFirst(table: seq<string>, name: string): (r: Option<nat>)
    ensures r.Some? ==> r.value < |table| && SameName(table[r.value], name)
    ensures r.Some? ==> forall j :: 0 <= j < r.value ==> !SameName(table[j], name)
    ensures r.None? <==> !Running(table, name)
  {
    if |table| == 0 then None
    else if LowerStr(table[0]) == LowerStr(name) then Some(0)
    else
      match FindFirst(table[1..], name)
      case None =>
        assert forall j :: 0 < j < |table| ==> table[1..][j - 1] == table[j];
        None
      case Some(i) =>
        assert forall j :: 0 < j < i + 1 ==> table[1..][j - 1] == table[j];
        Some(i + 1)
  }

  /** The table without its `i`-th process. */
  function RemoveAt(table: seq<string>, i: nat): (r: seq<string>)
    requires i < |table|
    ensures |r| == |table| - 1
    ensures multiset(r) + multiset{table[i]} == multiset(table)
  {
    assert table == table[..i] + [table[i]] + table[i + 1..];
    table[..i] + table[i + 1..]
  }

  /** What `terminate_process` returns, with the process table it leaves. */
  datatype Termination = Termination(ok: bool, table: seq<string>)

  /** `terminate_process(name)`: terminate the first running process whose
      name matches `name` ignoring case and report true; report false when
      none matches.  `raises` stands for psutil raising (the process
      vanished, access was denied, it is a zombie, or anything else): the
      attempt then reports false and terminates nothing. */
  function TerminateProcess(table: seq<string>, name: string, raises: bool): (r: Termination)
    ensures raises ==> r == Termination(false, table)
    ensures !raises ==> (r.ok <==> Running(table, name))
    ensures !r.ok ==> r.table == table
    ensures r.ok ==> exists i :: 0 <= i < |table| && SameName(table[i], name)
                                && (forall j :: 0 <= j < i ==> !SameName(table[j], name))
                                && r.table == RemoveAt(table, i)
  {
    if raises then Termination(false, table)
    else
      match FindFirst(table, name)
      case None => Termination(false, table)
      case Some(i) => Termination(true, RemoveAt(table, i))
  }

  /** Removing a process of another name does not change whether `name`
      is running. */
  lemma RemoveOtherKeepsRunning(table: seq<string>, i: nat, name: string)
    requires i < |table|
    requires !SameName(table[i], name)
    ensures Running(RemoveAt(table, i), name) <==> Running(table, name)
  {
    var r := RemoveAt(table, i);
    if Running(table, name) {
      var j :| 0 <= j < |table| && SameName(table[j], name);
      if j < i {
        assert r[j] == table[j];
      } else {
        assert r[j - 1] == table[j];
      }
    }
    if Running(r, name) {
      var j :| 0 <= j < |r| && SameName(r[j], name);
      if j < i {
        assert r[j] == table[j];
      } else {
        assert r[j] == table[j + 1];
      }
    }
  }

  /** The result of walking the block list once: the names whose
      termination succeeded, in order, and the process table afterwards. */
  datatype Sweep = Sweep(blocked: seq<string>, table: seq<string>)

  /** The `k`-th name of `names` matches `blocked[k]` ignoring case, for
      every `k`. */
  predicate MatchesNames(names: seq<string>, blocked: seq<string>)
  {
    |names| == |blocked| && forall k :: 0 <= k < |names| ==> SameName(names[k], blocked[k])
  }

  /** Matching is kept when both sides gain a matching first name. */
  lemma MatchesNamesCons(x: string, p: string, names: seq<string>, blocked: seq<string>)
    requires SameName(x, p) && MatchesNames(names, blocked)
    ensures MatchesNames([x] + names, [p] + blocked)
  {
    forall k | 0 < k < |names| + 1
      ensures SameName(([x] + names)[k], ([p] + blocked)[k])
    {
      assert ([x] + names)[k] == names[k - 1];
      assert ([p] + blocked)[k] == blocked[k - 1];
    }
  }

  /** `after` is `before` less one process per name in `blocked`: the
      `k`-th removed process matches `blocked[k]` ignoring case, and every
      other process is still there. */
  ghost predicate RemovesOnePerName(before: seq<string>, after: seq<string>, blocked: seq<string>)
  {
    exists removed: seq<string> ::
      MatchesNames(removed, blocked) && multiset(after) + multiset(removed) == multiset(before)
  }

  /** Removing no process leaves the table as it is. */
  lemma RemovesNothing(table: seq<string>)
    ensures RemovesOnePerName(table, table, [])
  {
    var none: seq<string> := [];
    assert multiset(table) + multiset(none) == multiset(table);
    assert MatchesNames(none, []);
  }

  /** Removing a process that matches `p` before a removal of one process
      per name in `blocked` removes one process per name in `[p] + blocked`. */
  lemma RemoveThenRemoves(before: seq<string>, i: nat, p: string, after: seq<string>, blocked: seq<string>)
    requires i < |before| && SameName(before[i], p)
    requires RemovesOnePerName(RemoveAt(before, i), after, blocked)
    ensures RemovesOnePerName(before, after, [p] + blocked)
  {
    var rest :| MatchesNames(rest, blocked) && multiset(after) + multiset(rest) == multiset(RemoveAt(before, i));
    var removed := [before[i]] + rest;
    MatchesNamesCons(before[i], p, rest, blocked);
    assert multiset(removed) == multiset{before[i]} + multiset(rest);
    assert multiset(after) + multiset(removed) == multiset(before);
  }

  /** The `for process in self.block_list` loop of one monitoring pass,
      from position `i` on.  An entry is tried only if it was in `snapshot`
      (the lower-cased listing taken once at the start of the pass); its
      termination works on the live `table`, which shrinks as processes
      are terminated.  `raises` holds the block-list positions whose
      termination attempt raises. */
  function SweepFrom(blockList: seq<string>, i: nat, snapshot: seq<string>,
                     table: seq<string>, raises: set<nat>): (r: Sweep)
    requires i <= |blockList|
    ensures IsSubsequence(r.blocked, blockList[i..])
    ensures forall p :: p in r.blocked ==> Running(snapshot, p)
    ensures |r.table| + |r.blocked| == |table|
    ensures RemovesOnePerName(table, r.table, r.blocked)
    decreases |blockList| - i
  {
    if i == |blockList| then
      RemovesNothing(table);
      Sweep([], table)
    else
      var p := blockList[i];
      assert blockList[i..][1..] == blockList[i + 1..];
      InSnapshotIffRunning(snapshot, p);
      if LowerStr(p) in LowerAll(snapshot) then
        var t := TerminateProcess(table, p, i in raises);
        var rest := SweepFrom(blockList, i + 1, snapshot, t.table, raises);
        if t.ok then
          assert ([p] + rest.blocked)[1..] == rest.blocked;
          assert RemovesOnePerName(table, rest.table, [p] + rest.blocked) by {
            var j :| 0 <= j < |table| && SameName(table[j], p) && t.table == RemoveAt(table, j);
            RemoveThenRemoves(table, j, p, rest.table, rest.blocked);
          }
          Sweep([p] + rest.blocked, rest.table)
        else rest
      else SweepFrom(blockList, i + 1, snapshot, table, raises)
  }

  /** The walk over a whole block list. */
  function SweepAll(blockList: seq<string>, snapshot: seq<string>, table: seq<string>,
                    raises: set<nat>): (r: Sweep)
    ensures IsSubsequence(r.blocked, blockList)
    ensures |r.blocked| <= |blockList|
    ensures forall p :: p in r.blocked ==> p in blockList && Running(snapshot, p)
    ensures |r.table| + |r.blocked| == |table|
    ensures RemovesOnePerName(table, r.table, r.blocked)
  {
    var r := SweepFrom(blockList, 0, snapshot, table, raises);
    assert blockList[0..] == blockList;
    SubsequenceBounds(r.blocked, blockList);
    r
  }

  /** The block-list entries from position `i` on that were running when
      the snapshot was taken and whose termination attempt does not raise,
      in block-list order. */
  ghost function RunningEntries(blockList: seq<string>, i: nat, snapshot: seq<string>,
                                raises: set<nat>): seq<string>
    requires i <= |blockList|
    decreases |blockList| - i
  {
    if i == |blockList| then []
    else if Running(snapshot, blockList[i]) && i !in raises
    then [blockList[i]] + RunningEntries(blockList, i + 1, snapshot, raises)
    else RunningEntries(blockList, i + 1, snapshot, raises)
  }

  /** No two block-list entries name the same process, ignoring case. */
  predicate DistinctNames(blockList: seq<string>)
  {
    forall a, b :: 0 <= a < b < |blockList| ==> !SameName(blockList[a], blockList[b])
  }

  /** When the block-list names are distinct, a pass terminates exactly
      the block-listed processes that the snapshot saw running, except those
      whose termination raises, provided the live table agrees with the
      snapshot about those names.  A raising attempt is not reported, and
      the entries after it are tried as usual. */
  lemma {:induction false} SweepBlocksEveryRunningEntry(blockList: seq<string>, i: nat,
                                                        snapshot: seq<string>, table: seq<string>,
                                                        raises: set<nat>)
    requires i <= |blockList|
    requires DistinctNames(blockList)
    requires forall k :: i <= k < |blockList| ==> (Running(table, blockList[k]) <==> Running(snapshot, blockList[k]))
    ensures SweepFrom(blockList, i, snapshot, table, raises).blocked == RunningEntries(blockList, i, snapshot, raises)
    decreases |blockList| - i
  {
    if i < |blockList| {
      var p := blockList[i];
      InSnapshotIffRunning(snapshot, p);
      if Running(snapshot, p) && i !in raises {
        var t := TerminateProcess(table, p, false);
        var j :| 0 <= j < |table| && SameName(table[j], p)
                 && (forall j' :: 0 <= j' < j ==> !SameName(table[j'], p))
                 && t.table == RemoveAt(table, j);
        forall k | i + 1 <= k < |blockList|
          ensures Running(t.table, blockList[k]) <==> Running(snapshot, blockList[k])
        {
          assert !SameName(table[j], blockList[k]);
          RemoveOtherKeepsRunning(table, j, blockList[k]);
        }
        SweepBlocksEveryRunningEntry(blockList, i + 1, snapshot, t.table, raises);
      } else {
        SweepBlocksEveryRunningEntry(blockList, i + 1, snapshot, table, raises);
      }
    }
  }

  /** An entry that was not seen in the listing, or whose termination
      reports false, is passed over: the walk goes on from the next entry
      with the same table. */
  lemma SweepSkips(blockList: seq<string>, i: nat, snapshot: seq<string>, table: seq<string>,
                   raises: set<nat>)
    requires i < |blockList|
    requires !Running(snapshot, blockList[i]) || !TerminateProcess(table, blockList[i], i in raises).ok
    ensures SweepFrom(blockList, i, snapshot, table, raises) == SweepFrom(blockList, i + 1, snapshot, table, raises)
  {
    InSnapshotIffRunning(snapshot, blockList[i]);
  }

  /** An entry seen in the listing whose termination succeeds is blocked
      first, and the walk goes on from the next entry with the table that
      termination leaves. */
  lemma SweepBlocksHead(blockList: seq<string>, i: nat, snapshot: seq<string>, table: seq<string>,
                        raises: set<nat>)
    requires i < |blockList|
    requires Running(snapshot, blockList[i]) && TerminateProcess(table, blockList[i], i in raises).ok
    ensures var rest := SweepFrom(blockList, i + 1, snapshot,
                                  TerminateProcess(table, blockList[i], i in raises).table, raises);
            SweepFrom(blockList, i, snapshot, table, raises) == Sweep([blockList[i]] + rest.blocked, rest.table)
  {
    InSnapshotIffRunning(snapshot, blockList[i]);
  }

  /** Some name in `blocked` matches `name`, ignoring case. */
  ghost predicate Covered(blocked: seq<string>, name: string)
  {
    exists p :: p in blocked && SameName(p, name)
  }

  /** A successful termination of `p` leaves every process of another name
      running. */
  lemma TerminateKeepsOthers(table: seq<string>, p: string, raises: bool, name: string)
    requires TerminateProcess(table, p, raises).ok
    requires !SameName(p, name) && Running(table, name)
    ensures Running(TerminateProcess(table, p, raises).table, name)
  {
    var j :| 0 <= j < |table| && SameName(table[j], p) && TerminateProcess(table, p, raises).table == RemoveAt(table, j);
    RemoveOtherKeepsRunning(table, j, name);
  }

  /** With or without repeated names, every block-list entry from `i` on
      that the snapshot saw running, that is still running, and whose
      termination does not raise is covered: some blocked name matches it.
      Either the entry itself is blocked, or an earlier entry with the same
      name already terminated the process it would have matched. */
  lemma {:induction false} SweepFromCovers(blockList: seq<string>, i: nat, snapshot: seq<string>,
                                           table: seq<string>, raises: set<nat>, k: nat)
    requires i <= k < |blockList|
    requires k !in raises
    requires Running(snapshot, blockList[k]) && Running(table, blockList[k])
    ensures Covered(SweepFrom(blockList, i, snapshot, table, raises).blocked, blockList[k])
    decreases |blockList| - i
  {
    var p := blockList[i];
    var t := TerminateProcess(table, p, i in raises);
    if !Running(snapshot, p) || !t.ok {
      SweepSkips(blockList, i, snapshot, table, raises);
      SweepFromCovers(blockList, i + 1, snapshot, table, raises, k);
    } else {
      SweepBlocksHead(blockList, i, snapshot, table, raises);
      var blocked := SweepFrom(blockList, i, snapshot, table, raises).blocked;
      var rest := SweepFrom(blockList, i + 1, snapshot, t.table, raises).blocked;
      assert blocked == [p] + rest;
      if SameName(p, blockList[k]) {
        assert p in blocked;
      } else {
        TerminateKeepsOthers(table, p, i in raises, blockList[k]);
        SweepFromCovers(blockList, i + 1, snapshot, t.table, raises, k);
        var q :| q in rest && SameName(q, blockList[k]);
        assert q in blocked;
      }
    }
  }

  /** Several instances of one program are terminated once per block-list
      entry naming it, matching case-insensitively: two entries for `name`
      terminate both running instances, whatever their spelling. */
  lemma TwoInstancesTwoEntries(name: string, other: string)
    requires SameName(other, name)
    ensures SweepAll([name, name], [other, name], [other, name], {}) == Sweep([name, name], [])
  {
    var bl := [name, name];
    var snap := [other, name];
    var none: set<nat> := {};
    SecondEntryTakesLastInstance(name, other);
    assert SameName(snap[1], name);
    assert TerminateProcess(snap, name, false) == Termination(true, [name]) by {
      assert FindFirst(snap, name) == Some(0);
      assert RemoveAt(snap, 0) == [name];
    }
    SweepBlocksHead(bl, 0, snap, snap, none);
    assert SweepAll(bl, snap, snap, none) == SweepFrom(bl, 0, snap, snap, none);
  }

  /** The second step of `TwoInstancesTwoEntries`: the second entry
      terminates the one instance left. */
  lemma SecondEntryTakesLastInstance(name: string, other: string)
    ensures SweepFrom([name, name], 1, [other, name], [name], {}) == Sweep([name], [])
  {
    var bl := [name, name];
    var snap := [other, name];
    var none: set<nat> := {};
    assert SameName(snap[1], name);
    assert SweepFrom(bl, 2, snap, [], none) == Sweep([], []);
    assert TerminateProcess([name], name, false) == Termination(true, []) by {
      assert FindFirst([name], name) == Some(0);
    }
    SweepBlocksHead(bl, 1, snap, [name], none);
  }

  /** A second entry naming the same program finds nothing left once the
      only instance is gone, so it is not counted as blocked.  This rests
      on the model's reading of `proc.terminate()` as removing the process
      at once; the real call only sends a signal, and a process that has
      not yet exited would still be listed and matched again. */
  lemma OneInstanceTwoEntries(name: string)
    ensures SweepAll([name, name], [name], [name], {}) == Sweep([name], [])
  {
    var bl := [name, name];
    var snap := [name];
    var none: set<nat> := {};
    assert SameName(snap[0], name);
    assert SweepFrom(bl, 2, snap, [], none) == Sweep([], []);
    assert !TerminateProcess([], name, false).ok;
    SweepSkips(bl, 1, snap, [], none);
    assert TerminateProcess(snap, name, false) == Termination(true, []) by {
      assert FindFirst(snap, name) == Some(0);
    }
    SweepBlocksHead(bl, 0, snap, snap, none);
  }
}

=== FILE: session_lists.dfy ===
/** The two lists `start_session` derives from the mapping and the user's
    selection (backend/app_logic.py:55-64): the allowed process names and
    the block list. */
module SessionLists {
  import opened Options
  import opened AppMappings

  /** `[app_mappings[app] for app in allowed_apps if app in app_mappings]`:
      in the caller's order, unknown display names skipped. */
  function AllowedProcesses(m: AppMap, apps: seq<string>): (r: seq<string>)
    ensures |r| <= |apps|
    ensures forall p :: p in r ==> exists i :: 0 <= i < |apps| && Lookup(m, apps[i]) == Some(p)
  {
    if |apps| == 0 then []
    else
      var rest := AllowedProcesses(m, apps[1..]);
      assert forall p :: p in rest ==> exists i :: 0 <= i < |apps| && Lookup(m, apps[i]) == Some(p) by {
        forall p | p in rest
          ensures exists i :: 0 <= i < |apps| && Lookup(m, apps[i]) == Some(p)
        {
          var j :| 0 <= j < |apps[1..]| && Lookup(m, apps[1..][j]) == Some(p);
          assert apps[1..][j] == apps[j + 1];
        }
      }
      match Lookup(m, apps[0])
      case Some(p) => [p] + rest
      case None => rest
  }

  /** `[process for display, process in app_mappings.items() if display not
      in allowed_apps]`: in insertion order, one entry per unselected key. */
  function BlockList(m: seq<Entry>, apps: seq<string>): (r: seq<string>)
    ensures |r| <= |m|
    ensures forall p :: p in r <==> exists i :: 0 <= i < |m| && m[i].process == p && m[i].display !in apps
  {
    if |m| == 0 then []
    else
      var rest := BlockList(m[1..], apps);
      assert forall i :: 0 < i < |m| ==> m[1..][i - 1] == m[i];
      if m[0].display in apps then rest else [m[0].process] + rest
  }

  /** Selecting `a + b` allows the processes of `a` followed by those of `b`:
      the allowed list follows the caller's order, element by element. */
  lemma {:induction false} AllowedProcessesAppend(m: AppMap, a: seq<string>, b: seq<string>)
    ensures AllowedProcesses(m, a + b) == AllowedProcesses(m, a) + AllowedProcesses(m, b)
    decreases |a|
  {
    if |a| == 0 {
      assert a + b == b;
    } else {
      assert (a + b)[1..] == a[1..] + b;
      AllowedProcessesAppend(m, a[1..], b);
    }
  }

  /** Every selected display name that the mapping knows contributes its
      process name; the ones it does not know contribute nothing. */
  lemma AllowedProcessesSingle(m: AppMap, app: string)
    ensures app in Keys(m) ==> AllowedProcesses(m, [app]) == [Lookup(m, app).value]
    ensures app !in Keys(m) ==> AllowedProcesses(m, [app]) == []
  {
    assert [app][1..] == [];
  }

  /** When every selected name is a key, the allowed list is exactly the
      looked-up process names, position by position. */
  lemma {:induction false} AllowedProcessesAllKnown(m: AppMap, apps: seq<string>)
    requires forall i :: 0 <= i < |apps| ==> apps[i] in Keys(m)
    ensures |AllowedProcesses(m, apps)| == |apps|
    ensures forall i :: 0 <= i < |apps| ==> Lookup(m, apps[i]) == Some(AllowedProcesses(m, apps)[i])
    decreases |apps|
  {
    if |apps| > 0 {
      AllowedProcessesAllKnown(m, apps[1..]);
      var r := AllowedProcesses(m, apps);
      var rest := AllowedProcesses(m, apps[1..]);
      assert r == [Lookup(m, apps[0]).value] + rest;
      forall i | 0 < i < |apps|
        ensures Lookup(m, apps[i]) == Some(r[i])
      {
        assert apps[1..][i - 1] == apps[i];
      }
    }
  }

  /** The block list of `m1 + m2` is the block list of `m1` followed by that
      of `m2`: insertion order is kept and duplicates are not collapsed. */
  lemma {:induction false} BlockListAppend(m1: seq<Entry>, m2: seq<Entry>, apps: seq<string>)
    ensures BlockList(m1 + m2, apps) == BlockList(m1, apps) + BlockList(m2, apps)
    decreases |m1|
  {
    if |m1| == 0 {
      assert m1 + m2 == m2;
    } else {
      assert (m1 + m2)[1..] == m1[1..] + m2;
      BlockListAppend(m1[1..], m2, apps);
    }
  }

  /** The display names of the mapping that the user did not select. */
  ghost function UnselectedKeys(m: seq<Entry>, apps: seq<string>): set<string>
  {
    set d | d in Keys(m) && d !in apps
  }

  /** The block list has exactly one entry per unselected key. */
  lemma {:induction false} BlockListLength(m: AppMap, apps: seq<string>)
    ensures |BlockList(m, apps)| == |UnselectedKeys(m, apps)|
    decreases |m|
  {
    if |m| > 0 {
      var rest: AppMap := m[1..];
      BlockListLength(rest, apps);
      var d := m[0].display;
      assert Keys(m) == [d] + Keys(rest);
      assert d !in Keys(rest);
      if d in apps {
        assert UnselectedKeys(m, apps) == UnselectedKeys(rest, apps);
      } else {
        assert UnselectedKeys(m, apps) == {d} + UnselectedKeys(rest, apps);
      }
    }
  }

  /** Every mapping entry lands on one side: a selected display name
      contributes its process name to the allowed list, an unselected one
      to the block list. */
  lemma EveryEntryAllowedOrBlocked(m: AppMap, apps: seq<string>, i: int)
    requires 0 <= i < |m|
    ensures m[i].display in apps ==> m[i].process in AllowedProcesses(m, apps)
    ensures m[i].display !in apps ==> m[i].process in BlockList(m, apps)
  {
    if m[i].display in apps {
      var j :| 0 <= j < |apps| && apps[j] == m[i].display;
      LookupEntry(m, i);
      assert apps == apps[..j] + [apps[j]] + apps[j + 1..];
      AllowedProcessesAppend(m, apps[..j] + [apps[j]], apps[j + 1..]);
      AllowedProcessesAppend(m, apps[..j], [apps[j]]);
      AllowedProcessesSingle(m, apps[j]);
    }
  }

  /** The worked example: with `{"A": "a.exe", "B": "b.exe"}` and only "A"
      selected, "a.exe" is allowed and "b.exe" is blocked. */
  lemma TwoAppExample()
    ensures AllowedProcesses([Entry("A", "a.exe"), Entry("B", "b.exe")], ["A"]) == ["a.exe"]
    ensures BlockList([Entry("A", "a.exe"), Entry("B", "b.exe")], ["A"]) == ["b.exe"]
  {
    var m: AppMap := [Entry("A", "a.exe"), Entry("B", "b.exe")];
    LookupEntry(m, 0);
    assert ["A"][1..] == [];
    assert m[1..][1..] == [];
  }

  /** Process names need not be unique: when two display names share one
      process name and only one of them is selected, that process name is
      both allowed and blocked. */
  lemma SharedProcessNameIsBlocked()
    ensures "word.exe" in AllowedProcesses([Entry("Word", "word.exe"), Entry("Office", "word.exe")], ["Word"])
    ensures "word.exe" in BlockList([Entry("Word", "word.exe"), Entry("Office", "word.exe")], ["Word"])
  {
    var m: AppMap := [Entry("Word", "word.exe"), Entry("Office", "word.exe")];
    EveryEntryAllowedOrBlocked(m, ["Word"], 0);
    EveryEntryAllowedOrBlocked(m, ["Word"], 1);
  }
}

=== FILE: subsequences.dfy ===
/** Order-preserving selection of elements from a sequence. */
module Subsequences {

  /** `xs` is obtained from `ys` by deleting elements, keeping the order of
      the rest. */
  ghost predicate IsSubsequence<T>(xs: seq<T>, ys: seq<T>)
    decreases |ys|
  {
    |xs| == 0
    || (|ys| > 0
        && ((xs[0] == ys[0] && IsSubsequence(xs[1..], ys[1..]))
            || IsSubsequence(xs, ys[1..])))
  }

  /** A subsequence is no longer than the sequence it is taken from, and
      each of its elements occurs there. */
  lemma {:induction false} SubsequenceBounds<T>(xs: seq<T>, ys: seq<T>)
    requires IsSubsequence(xs, ys)
    ensures |xs| <= |ys|
    ensures forall x :: x in xs ==> x in ys
    decreases |ys|
  {
    if |xs| > 0 {
      if xs[0] == ys[0] && IsSubsequence(xs[1..], ys[1..]) {
        SubsequenceBounds(xs[1..], ys[1..]);
        assert xs == [xs[0]] + xs[1..];
        assert ys == [ys[0]] + ys[1..];
      } else {
        SubsequenceBounds(xs, ys[1..]);
        assert ys == [ys[0]] + ys[1..];
      }
    }
  }
}

=== FILE: text.dfy ===
/** ASCII-only models of the two string operations the program relies on:
    `str.lower()` and the substring test `needle in haystack`. */
module AsciiText {

  /** `c.lower()` restricted to ASCII: upper-case letters map to lower case,
      every other character is left alone. */
  function Lower(c: char): (r: char)
    ensures 'A' <= c <= 'Z' ==> r as int == c as int + 32
    ensures !('A' <= c <= 'Z') ==> r == c
    ensures !('A' <= r <= 'Z')
  {
    if 'A' <= c <= 'Z' then (c as int + 32) as char else c
  }

  /** `s.lower()` restricted to ASCII. */
  function LowerStr(s: string): (r: string)
    ensures |r| == |s|
    ensures forall i :: 0 <= i < |s| ==> r[i] == Lower(s[i])
  {
    seq(|s|, i requires 0 <= i < |s| => Lower(s[i]))
  }

  /** A string in which no ASCII capital occurs. */
  predicate IsLower(s: string)
  {
    forall i :: 0 <= i < |s| ==> !('A' <= s[i] <= 'Z')
  }

  /** Lower-casing yields a lower-case string, and lower-casing twice is the
      same as lower-casing once. */
  lemma LowerStrIdempotent(s: string)
    ensures IsLower(LowerStr(s))
    ensures LowerStr(LowerStr(s)) == LowerStr(s)
  {
    var once := LowerStr(s);
    var twice := LowerStr(once);
    forall i | 0 <= i < |s|
      ensures twice[i] == once[i]
    {
      assert !('A' <= once[i] <= 'Z');
    }
  }

  /** `p` is a prefix of `s`. */
  predicate StartsWith(s: string, p: string)
  {
    |p| <= |s| && s[..|p|] == p
  }

  /** Python's `needle in haystack` for strings: does `needle` occur as a
      contiguous block of `haystack`?  The empty needle occurs everywhere. */
  predicate Contains(haystack: string, needle: string)
    decreases |haystack|
  {
    StartsWith(haystack, needle) || (|haystack| > 0 && Contains(haystack[1..], needle))
  }

  /** The reference meaning of a substring test: some position at which the
      needle is found. */
  ghost predicate OccursAt(haystack: string, needle: string, i: int)
  {
    0 <= i && i + |needle| <= |haystack| && haystack[i..i + |needle|] == needle
  }

  /** An occurrence at position `i` is found by the executable test. */
  lemma {:induction false} OccursAtContains(haystack: string, needle: string, i: int)
    requires OccursAt(haystack, needle, i)
    ensures Contains(haystack, needle)
    decreases i
  {
    if i == 0 {
      assert haystack[..|needle|] == haystack[0..|needle|];
    } else {
      var tail := haystack[1..];
      assert tail[i - 1..i - 1 + |needle|] == haystack[i..i + |needle|];
      OccursAtContains(tail, needle, i - 1);
    }
  }

  /** `needle` occurs in `haystack` at some position. */
  ghost predicate Substring(needle: string, haystack: string)
  {
    exists i :: OccursAt(haystack, needle, i)
  }

  /** The executable substring test agrees with the positional definition,
      in both directions. */
  lemma {:induction false} ContainsIffOccurs(haystack: string, needle: string)
    ensures Contains(haystack, needle) <==> Substring(needle, haystack)
    decreases |haystack|
  {
    if exists i :: OccursAt(haystack, needle, i) {
      var i :| OccursAt(haystack, needle, i);
      OccursAtContains(haystack, needle, i);
    }
    if Contains(haystack, needle) {
      if StartsWith(haystack, needle) {
        assert OccursAt(haystack, needle, 0);
      } else {
        var tail := haystack[1..];
        ContainsIffOccurs(tail, needle);
        var j :| OccursAt(tail, needle, j);
        assert haystack[j + 1..j + 1 + |needle|] == tail[j..j + |needle|];
        assert OccursAt(haystack, needle, j + 1);
      }
    }
  }
}
